=== FILE: README.md ===
# FerrisPad signing tool — Dafny model

The signing tool (`plugin-signer`) produces and checks Ed25519 signatures
for two kinds of artifact: a plugin directory (`init.lua` plus
`plugin.toml`) and a release binary. This project models its trust
protocol:

- the checksum engine: SHA-256 rendered as bare lowercase hex, or behind a
  `sha256:` tag;
- the version scan over `plugin.toml`;
- the two `:`-joined canonical messages;
- the key store, as a map from file name to bytes;
- the sign and verify control flow, including the order in which errors are
  reported;
- the name of the sidecar `.sig` file.

SHA-256, Ed25519, base64 and the UTF-8 check of `fs::read_to_string` are
library calls. They are uninterpreted function fields of
`Crypto.Primitives`, passed to every operation that calls them. Their output sizes are in
the types (`Digest`, `KeyBytes`, `SigBytes`). The few facts the protocol
relies on are the predicate `Crypto.Sound`:

- a signature verifies under its seed's public key;
- a derived public key is a valid point;
- base64 decoding inverts encoding;
- decoded UTF-8 text re-encodes to the bytes it came from;
- the UTF-8 encoding of any text decodes back to that text, so only bytes
  that are not valid UTF-8 are refused.

The random seed that `keygen` draws is a parameter. File contents are
`Option<seq<byte>>`, with `None` for a file that is absent.

Modules, leaf first: `Wrappers` (Option/Result), `Bytes` (bytes and the
UTF-8 encoding behind `as_bytes`), `Hex`, `Crypto`, `Checksum`, `Manifest`,
`Message`, `Errors`, `KeyStore`, `Sidecar`, `Signer` (the four commands)
and `Protocol` (properties across commands).

Some behaviours of the code that a reader might not expect:

- `trim_matches('"')` removes every leading and trailing quote, so an
  unbalanced `"1.0` yields `1.0`.
- `keygen` with an existing private key prints a warning and succeeds,
  leaving both key files as they were.
- The sidecar name is always the whole file name with `.sig` appended:
  `app.exe` gives `app.exe.sig`.
- `verify_plugin` reports a missing file as a read error, while
  `sign_plugin` checks existence first and reports "not found".

Two behaviours are recorded as lemmas rather than changed:

- The release message `version:platform:hex` escapes nothing. Moving a
  `:`-separated piece from the version to the platform gives the same
  signed bytes (`Message.ReleaseMessageCollision`). Without `:` in either
  field the message is unambiguous (`Message.ReleaseMessageInjective`).
- The plugin message is unambiguous even when the version contains `:`. A
  directory name holds no `/`, and both checksums are 71 characters wide
  (`Message.PluginMessageInjective`).

## Model

| member | source | states |
|---|---|---|
| Bytes.Utf8Injective | tools/signer/src/main.rs:192 | two strings have the same UTF-8 bytes exactly when they are equal, so `as_bytes` loses nothing |
| Hex.Encode | tools/signer/src/main.rs:271 | hex rendering has two characters per byte |
| Hex.EncodeIsLowerHex | tools/signer/src/main.rs:271 | every character of the rendering is a lowercase hex digit |
| Hex.DecodeEncode | tools/signer/src/main.rs:271 | reading the hex rendering back gives the original bytes |
| Hex.EncodeInjective | tools/signer/src/main.rs:271 | two byte strings have the same rendering exactly when they are equal |
| Checksum.ChecksumHex | tools/signer/src/main.rs:267-272 | bare checksum is 64 lowercase hex digits that decode to the SHA-256 digest of the input |
| Checksum.PrefixedChecksum | tools/signer/src/main.rs:73-78 | tagged checksum is `sha256:` followed by the bare checksum of the same bytes, 71 characters in all |
| Checksum.ChecksumHexFaithful | tools/signer/src/main.rs:267-272 | two inputs share a checksum exactly when they share a digest |
| Checksum.ChecksumHexHasNoColon | tools/signer/src/main.rs:288 | a bare checksum never contains the message delimiter |
| Manifest.Lines | tools/signer/src/main.rs:171 | no line of `str::lines` contains a newline, and empty text has no lines |
| Manifest.LinesCons | tools/signer/src/main.rs:171 | a newline-terminated first line comes out first, less one `\r` before the newline, followed by the lines of the rest |
| Manifest.FirstWithPrefix | tools/signer/src/main.rs:172 | the index found is of a line with the prefix, and no earlier line has it; `None` exactly when no line has it |
| Manifest.LeadingQuotesRun | tools/signer/src/main.rs:174 | the leading quotes counted are all quotes and are followed by a non-quote or by nothing |
| Manifest.TrailingQuotesRun | tools/signer/src/main.rs:174 | the trailing quotes counted are all quotes and are preceded by a non-quote or by nothing |
| Manifest.TrimQuotes | tools/signer/src/main.rs:174 | result is an infix with only quotes cut from both ends, and neither starts nor ends with a quote |
| Manifest.QuotesTrimmedUnpaired | tools/signer/src/main.rs:174 | any number of quotes on either side, balanced or not, is removed |
| Manifest.UnbalancedQuoteExample | tools/signer/src/main.rs:174 | `"1.0` trims to `1.0` |
| Manifest.ExtractVersion | tools/signer/src/main.rs:171-175 | `None` exactly when no line starts with `version = `; otherwise the trimmed remainder of the first such line, with no newline and no quote at either end |
| Manifest.VersionFromFirstLine | tools/signer/src/main.rs:171-175 | a first line that starts with `version = ` decides the version whatever follows |
| Manifest.VersionSkipsLine | tools/signer/src/main.rs:171-175 | a first line that does not start with `version = ` is skipped |
| Manifest.VersionFromLastLine | tools/signer/src/main.rs:171-175 | an unterminated last line is read as it stands |
| Manifest.IndentedLineIgnored | tools/signer/src/main.rs:172 | a line whose first character is not `v`, such as an indented one, is not a version line |
| Manifest.UnspacedLineIgnored | tools/signer/src/main.rs:172 | a `version=` line without spaces is not a version line |
| Manifest.ExampleManifest | tools/signer/src/main.rs:171-175 | a manifest whose second line is `version = "1.2.0"` declares `1.2.0` |
| Message.PluginMessage | tools/signer/src/main.rs:185-188 | with equal-width checksums, reading the message back (name to the first `/`, checksums from the end) yields exactly its four fields if and only if the name holds no `/` |
| Message.ReleaseMessage | tools/signer/src/main.rs:288 | reading the message back at its first two `:` yields exactly its three fields if and only if neither version nor platform holds a `:` (verification rebuilds the same format) |
| Message.PluginMessageInjective | tools/signer/src/main.rs:182-188 | with slash-free names and fixed-width checksums, equal plugin messages have equal name, version and checksums |
| Message.FieldsInjective | tools/signer/src/main.rs:182-188 | after the path, equal `:version:init:toml` tails with fixed-width checksums have equal fields |
| Message.ReleaseMessageInjective | tools/signer/src/main.rs:288 | with colon-free version and platform, equal release messages have equal fields |
| Message.ReleaseMessageCollision | tools/signer/src/main.rs:288 | shifting a `:`-separated piece from version to platform gives a different pair with the same message |
| Message.ReleaseCollisionExample | tools/signer/src/main.rs:288 | `1.0:beta` on `linux` and `1.0` on `beta:linux` produce the same message |
| KeyStore.Keygen | tools/signer/src/main.rs:87-100 | an existing private key leaves the store unchanged and reports it; otherwise the private file holds the 32-byte seed, the public file its public key, the private file is owner-only, and no other file changes |
| KeyStore.LoadSigningKey | tools/signer/src/main.rs:133-142 | a missing file is "could not read", a length other than 32 is "invalid size", and otherwise the file's bytes are the key |
| KeyStore.LoadVerifyingKey | tools/signer/src/main.rs:144-153 | as for the private key, plus "invalid public key" exactly when 32 bytes are not a curve point |
| KeyStore.KeygenThenLoad | tools/signer/src/main.rs:93-100 | after a first keygen the store holds a matched pair and both halves load |
| KeyStore.KeygenTwiceKeepsKey | tools/signer/src/main.rs:87-91 | a second keygen, with any randomness, leaves the store unchanged |
| Sidecar.LastDot | tools/signer/src/main.rs:309 | the position found holds the last dot; `None` exactly when there is no dot |
| Sidecar.SplitExtension | tools/signer/src/main.rs:309 | there is no extension exactly for `..`, the empty name and a name with no dot after its first character; with one, the name is stem, dot, extension with a non-empty stem and a dot-free extension; without one, the stem is the whole name |
| Sidecar.SidecarName | tools/signer/src/main.rs:307-312 | the sidecar name is the binary's name with `.sig` appended, with or without an extension |
| Signer.ReadClaim | tools/signer/src/main.rs:166-185 | manifest not UTF-8, then no version, then no directory name, in that order; on success the fields are the directory name, the extracted version and both tagged checksums |
| Signer.DecodeSignature | tools/signer/src/main.rs:241-242 | non-base64 text and a decoded length other than 64 are distinct errors; it succeeds exactly when the text decodes to 64 bytes, and then yields those bytes |
| Signer.SignPlugin | tools/signer/src/main.rs:155-193 | missing `init.lua`, then missing `plugin.toml`, then the claim's own error, then the private key's error, in that order; succeeds exactly when both files exist, the claim reads and the key loads; on success the message is `name/:version:init:toml` and the signature is base64 of the private key's signature over it |
| Signer.VerifyPlugin | tools/signer/src/main.rs:217-255 | missing `init.lua`, then missing `plugin.toml`, then the claim's error, then the public key's error, then the signature's decoding error, in that order; succeeds exactly when all of these are good, so a mismatch is never an error; PASSED exactly when the primitive accepts the message rebuilt from the directory |
| Signer.SignRelease | tools/signer/src/main.rs:278-313 | missing binary before key errors; on success the message is `version:platform:hex`, the signature signs it, and the sidecar is the binary name plus `.sig` |
| Signer.VerifyRelease | tools/signer/src/main.rs:320-350 | missing binary, then the public key's error, then the signature's decoding error, in that order; succeeds exactly when binary, key and signature encoding are good; PASSED exactly when the primitive accepts the message rebuilt from the binary, version and platform |
| Protocol.SignedVerifies | tools/signer/src/main.rs:191-193 | with a matched store, the base64 signature decodes back and verifies under the stored public key |
| Protocol.SignPluginThenVerify | tools/signer/src/main.rs:155-255 | verifying the signature `sign` printed, against the same directory and a matched pair, passes |
| Protocol.SignReleaseThenVerify | tools/signer/src/main.rs:278-350 | verifying the sidecar's signature against the same binary, version and platform passes |
| Protocol.KeygenSignVerifyRelease | tools/signer/src/main.rs:80-350 | first keygen, then sign-release, then verify-release passes |
| Protocol.PluginMessagesAgree | tools/signer/src/main.rs:182-238 | verification checks the very message signing signed for the same directory, whatever keys and signature are used |
| Protocol.ReleaseMessagesAgree | tools/signer/src/main.rs:285-329 | the same for releases |
| Protocol.SignPluginArtifactErrorsFirst | tools/signer/src/main.rs:159-191 | an artifact error from sign is the same whatever the key store holds |
| Protocol.TextManifestReads | tools/signer/src/main.rs:168-185 | a manifest whose bytes are the UTF-8 of a text with a version line, in a named directory, yields a claim with that version and the checksum of those bytes |
| Protocol.ClaimCoversManifestBytes | tools/signer/src/main.rs:168-179 | the manifest checksum is taken over exactly the file's bytes |
| Protocol.SignedPluginMessagesDistinct | tools/signer/src/main.rs:185-192 | two signed plugins with different claims never sign the same message, nor the same UTF-8 bytes |
| Protocol.PluginExample | tools/signer/src/main.rs:166-188 | a directory `todo-plugin` whose `plugin.toml` holds the bytes of a two-line manifest declaring `version = "1.2.0"` signs `todo-plugin/:1.2.0:sha256:<hex>:sha256:<hex>` |
| Protocol.ReleaseExample | tools/signer/src/main.rs:285-288 | `0.9.1` on `linux-amd64` signs `0.9.1:linux-amd64:<hex>` |

## Left out

- Command-line parsing, dispatch and exit codes (`Cli`, `Commands`, `main`) are glue.
- Console output, `print_key_as_rust_array` and `show_key` are presentation only. `show_key` is `load_verifying_key` followed by printing.
- The internals of SHA-256, Ed25519, base64 and UTF-8 validation are library calls. Collision resistance and unforgeability are not assumed. So "a changed byte is rejected" and "a foreign key is rejected" are not stated.
- Randomness (`OsRng`) is the `seed` parameter of `KeyStore.Keygen`.
- The `HOME` lookup and `create_dir_all` are left out. The key store is the key directory's contents.
- Failures of `fs::write` and `set_permissions` are left out, as is a partial keygen that writes the private file but not the public one. Keygen is modelled as writing both.
- KeyStore.Keygen: owner-only (`0o600`) permissions are a boolean on the store, set on every fresh keygen; the program restricts the file only on Unix targets (`#[cfg(unix)]`), and the target platform is not modelled.
- `exists()` followed by `fs::read` is modelled as one presence test. A file that exists but cannot be read is not modelled.
- Concurrent `keygen` runs racing on the key directory are left out.
- Paths are left out. The plugin directory name and the binary file name are given strings. Only the directory name is optional, `None` for a path that has no final component. `to_string_lossy` is not modelled.
- `with_extension` on a path with no file name is not modelled, because `fs::read` of such a path fails first. For the same reason, the `file_name().unwrap()` in the PASSED message of `verify_release` is left out.

=== FILE: bytes.dfy ===
/** Bytes and the UTF-8 encoding Rust's `str::as_bytes` exposes. */
module Bytes {

  newtype byte = x: int | 0 <= x < 256

  /** The UTF-8 encoding of one Unicode scalar value (section 3 of RFC 3629). */
  function EncodeChar(c: char): (r: seq<byte>)
    ensures 1 <= |r| <= 4
    ensures |r| == 1 <==> c as int < 0x80
    ensures |r| == 1 ==> r[0] as int == c as int
  {
    var n := c as int;
    if n < 0x80 then
      [n as byte]
    else if n < 0x800 then
      [(0xC0 + n / 0x40) as byte, (0x80 + n % 0x40) as byte]
    else if n < 0x1_0000 then
      [(0xE0 + n / 0x1000) as byte, (0x80 + n / 0x40 % 0x40) as byte, (0x80 + n % 0x40) as byte]
    else
      [(0xF0 + n / 0x4_0000) as byte, (0x80 + n / 0x1000 % 0x40) as byte,
       (0x80 + n / 0x40 % 0x40) as byte, (0x80 + n % 0x40) as byte]
  }

  /** `s.as_bytes()`: the UTF-8 bytes of a string. */
  function Utf8(s: string): (r: seq<byte>)
    ensures |r| >= |s|
  {
    if |s| == 0 then [] else EncodeChar(s[0]) + Utf8(s[1..])
  }

  /** How many bytes a UTF-8 sequence occupies, read off its lead byte. */
  function SequenceLength(lead: byte): nat {
    if lead < 0x80 then 1 else if lead < 0xE0 then 2 else if lead < 0xF0 then 3 else 4
  }

  /** The scalar value a well-formed UTF-8 sequence of one character denotes. */
  function ScalarValue(b: seq<byte>): int
    requires 1 <= |b| <= 4
  {
    if |b| == 1 then b[0] as int
    else if |b| == 2 then (b[0] as int - 0xC0) * 0x40 + (b[1] as int - 0x80)
    else if |b| == 3 then ((b[0] as int - 0xE0) * 0x40 + (b[1] as int - 0x80)) * 0x40 + (b[2] as int - 0x80)
    else (((b[0] as int - 0xF0) * 0x40 + (b[1] as int - 0x80)) * 0x40 + (b[2] as int - 0x80)) * 0x40 + (b[3] as int - 0x80)
  }

  /** The lead byte of a character's encoding announces its length, and the
      bytes decode back to the character. */
  lemma EncodeCharDecodes(c: char)
    ensures |EncodeChar(c)| == SequenceLength(EncodeChar(c)[0])
    ensures ScalarValue(EncodeChar(c)) == c as int
  {
    var n := c as int;
    if 0x80 <= n < 0x800 {
      TwoBytes(n);
    } else if 0x800 <= n < 0x1_0000 {
      ThreeBytes(n);
    } else if 0x1_0000 <= n {
      FourBytes(n);
    }
  }

  lemma TwoBytes(n: int)
    requires 0x80 <= n < 0x800
    ensures 0xC0 <= 0xC0 + n / 0x40 < 0xE0
    ensures (n / 0x40) * 0x40 + n % 0x40 == n
  {
  }

  lemma ThreeBytes(n: int)
    requires 0x800 <= n < 0x1_0000
    ensures 0xE0 <= 0xE0 + n / 0x1000 < 0xF0
    ensures ((n / 0x1000) * 0x40 + n / 0x40 % 0x40) * 0x40 + n % 0x40 == n
  {
    assert n / 0x40 == n / 0x1000 * 0x40 + n / 0x40 % 0x40;
  }

  lemma FourBytes(n: int)
    requires 0x1_0000 <= n < 0x11_0000
    ensures 0xF0 <= 0xF0 + n / 0x4_0000
    ensures (((n / 0x4_0000) * 0x40 + n / 0x1000 % 0x40) * 0x40 + n / 0x40 % 0x40) * 0x40 + n % 0x40 == n
  {
    assert n / 0x1000 == n / 0x4_0000 * 0x40 + n / 0x1000 % 0x40;
    assert n / 0x40 == n / 0x1000 * 0x40 + n / 0x40 % 0x40;
  }

  /** Distinct strings have distinct UTF-8 encodings: `as_bytes` loses nothing. */
  lemma {:induction false} Utf8Injective(s: string, t: string)
    ensures Utf8(s) == Utf8(t) <==> s == t
    decreases |s|
  {
    if Utf8(s) == Utf8(t) && |s| > 0 && |t| > 0 {
      var a, b := EncodeChar(s[0]), EncodeChar(t[0]);
      EncodeCharDecodes(s[0]);
      EncodeCharDecodes(t[0]);
      assert Utf8(s) == a + Utf8(s[1..]) && Utf8(t) == b + Utf8(t[1..]);
      assert a[0] == Utf8(s)[0] == b[0];
      assert a == Utf8(s)[..|a|] == b;
      assert s[0] as int == t[0] as int;
      assert Utf8(s[1..]) == Utf8(s)[|a|..] == Utf8(t[1..]);
      Utf8Injective(s[1..], t[1..]);
      assert s == [s[0]] + s[1..] && t == [t[0]] + t[1..];
    }
  }
}

=== FILE: checksum.dfy ===
/** The checksum engine: one SHA-256 pass over the whole input, rendered as
    bare lowercase hex (`compute_checksum_hex`) or with a `sha256:` scheme tag
    (`compute_checksum`). */
module Checksum {
  import opened Bytes
  import opened Wrappers
  import Hex
  import opened Crypto

  const Tag: string := "sha256:"

  /** `compute_checksum_hex`: 64 lowercase hex digits that read back as the digest. */
  function ChecksumHex(p: Primitives, data: seq<byte>): (r: string)
    ensures |r| == 64
    ensures Hex.IsLowerHex(r)
    ensures Hex.Decode(r) == Some(p.sha256(data))
  {
    var digest := p.sha256(data);
    Hex.DecodeEncode(digest);
    Hex.EncodeIsLowerHex(digest);
    Hex.Encode(digest)
  }

  /** `compute_checksum`: the tagged rendering, the bare rendering behind a `sha256:` prefix. */
  function PrefixedChecksum(p: Primitives, data: seq<byte>): (r: string)
    ensures |r| == |Tag| + 64
    ensures r[..|Tag|] == Tag
    ensures r[|Tag|..] == ChecksumHex(p, data)
    ensures Hex.Decode(r[|Tag|..]) == Some(p.sha256(data))
  {
    var digest := p.sha256(data);
    Hex.DecodeEncode(digest);
    Tag + Hex.Encode(digest)
  }

  /** Two inputs get the same checksum exactly when SHA-256 maps them to the
      same digest: the hex rendering loses nothing. */
  lemma ChecksumHexFaithful(p: Primitives, a: seq<byte>, b: seq<byte>)
    ensures ChecksumHex(p, a) == ChecksumHex(p, b) <==> p.sha256(a) == p.sha256(b)
  {
    Hex.EncodeInjective(p.sha256(a), p.sha256(b));
  }

  /** A checksum never contains the `:` that delimits canonical messages. */
  lemma ChecksumHexHasNoColon(p: Primitives, data: seq<byte>)
    ensures ':' !in ChecksumHex(p, data)
  {
  }
}

=== FILE: crypto.dfy ===
/** The cryptographic library calls of the signer, taken as uninterpreted
    functions: SHA-256 (FIPS 180-4), Ed25519 (RFC 8032), base64 with the
    standard alphabet and padding (section 4 of RFC 4648) and the UTF-8 check
    of `fs::read_to_string`. Their fixed output sizes live in the types; the
    properties the protocol relies on are collected in `Sound`. */
module Crypto {
  import opened Bytes
  import opened Wrappers

  /** A SHA-256 digest: 32 bytes. */
  type Digest = s: seq<byte> | |s| == 32 witness seq(32, _ => 0)

  /** An Ed25519 secret seed or compressed public key (section 5.1.5 of RFC 8032): 32 bytes. */
  type KeyBytes = s: seq<byte> | |s| == 32 witness seq(32, _ => 0)

  /** An Ed25519 signature R || S (section 5.1.6 of RFC 8032): 64 bytes. */
  type SigBytes = s: seq<byte> | |s| == 64 witness seq(64, _ => 0)

  datatype Primitives = Primitives(
    /** `Sha256::digest` */
    sha256: seq<byte> -> Digest,
    /** `SigningKey::verifying_key().to_bytes()` for a secret seed */
    publicOf: KeyBytes -> KeyBytes,
    /** `SigningKey::sign` over the message bytes */
    sign: (KeyBytes, seq<byte>) -> SigBytes,
    /** `VerifyingKey::verify`: true when the signature is accepted */
    verify: (KeyBytes, seq<byte>, SigBytes) -> bool,
    /** `VerifyingKey::from_bytes` succeeds: the bytes decode to a curve point (section 5.1.3 of RFC 8032) */
    isPoint: KeyBytes -> bool,
    /** `STANDARD.encode` */
    base64Encode: seq<byte> -> string,
    /** `STANDARD.decode`, `None` on malformed input */
    base64Decode: string -> Option<seq<byte>>,
    /** UTF-8 validation of `fs::read_to_string`, `None` on invalid data */
    utf8Decode: seq<byte> -> Option<string>
  )

  /** What the protocol assumes of the library: a signature made with a seed
      verifies under that seed's public key, a derived public key is a valid
      point, base64 decoding inverts encoding, a decoded text re-encodes to
      the bytes it came from, and the encoding of any text decodes back to it. Collision resistance and unforgeability are
      not assumed. */
  ghost predicate Sound(p: Primitives) {
    && (forall sk: KeyBytes, m: seq<byte> :: p.verify(p.publicOf(sk), m, p.sign(sk, m)))
    && (forall sk: KeyBytes :: p.isPoint(p.publicOf(sk)))
    && (forall b: seq<byte> :: p.base64Decode(p.base64Encode(b)) == Some(b))
    && (forall b: seq<byte> :: p.utf8Decode(b).Some? ==> Utf8(p.utf8Decode(b).value) == b)
    && (forall s: string :: p.utf8Decode(Utf8(s)) == Some(s))
  }
}

=== FILE: errors.dfy ===
/** The failures the signer reports; each aborts its command. A signature that
    does not verify is not among them: it is a `Verdict`. */
module Errors {

  /** The artifact files the signer reads. */
  datatype Artifact = InitLua | PluginToml | Binary

  datatype Error =
    /** the explicit existence check before signing failed ("... not found") */
    | NotFound(artifact: Artifact)
    /** reading the file failed while verifying (an I/O error) */
    | ReadFailed(artifact: Artifact)
    /** `plugin.toml` is not valid UTF-8 */
    | NotUtf8(artifact: Artifact)
    /** "Could not find version in plugin.toml" */
    | VersionNotFound
    /** "Invalid plugin directory": the path has no final component */
    | InvalidPluginDirectory
    /** "Could not read private key ... Run 'plugin-signer keygen' first." */
    | PrivateKeyUnreadable
    /** "Could not read public key ..." */
    | PublicKeyUnreadable
    /** "Invalid key file size": a key file that is not 32 bytes long */
    | InvalidKeyFileSize
    /** the public key bytes are not a valid curve point */
    | InvalidPublicKey
    /** the signature text is not valid base64 */
    | SignatureNotBase64
    /** the decoded signature is not 64 bytes long */
    | InvalidSignatureLength

  /** Errors that come from the key store rather than from the artifact. */
  predicate IsKeyError(e: Error) {
    e.PrivateKeyUnreadable? || e.PublicKeyUnreadable? || e.InvalidKeyFileSize? || e.InvalidPublicKey?
  }
}

=== FILE: hex.dfy ===
/** Lowercase hexadecimal rendering of bytes, as the `hex::encode` call in the
    signer produces it, with a reference decoder as its inverse. */
module Hex {
  import opened Bytes
  import opened Wrappers

  /** The lowercase digit for a value below 16, as in the table `0123456789abcdef`. */
  function Digit(d: nat): (c: char)
    requires d < 16
    ensures IsLowerHexDigit(c)
  {
    if d < 10 then ('0' as int + d) as char else ('a' as int + d - 10) as char
  }

  predicate IsLowerHexDigit(c: char) {
    '0' <= c <= '9' || 'a' <= c <= 'f'
  }

  /** Every character of `s` is a lowercase hexadecimal digit. */
  predicate IsLowerHex(s: string) {
    forall i :: 0 <= i < |s| ==> IsLowerHexDigit(s[i])
  }

  /** Each byte becomes two digits, high nibble first, from the lowercase table. */
  function Encode(b: seq<byte>): (r: string)
    ensures |r| == 2 * |b|
  {
    if |b| == 0 then []
    else [Digit(b[0] as int / 16), Digit(b[0] as int % 16)] + Encode(b[1..])
  }

  /** Every character of the rendering is a lowercase hex digit. */
  lemma {:induction false} EncodeIsLowerHex(b: seq<byte>)
    ensures IsLowerHex(Encode(b))
    decreases |b|
  {
    if |b| != 0 {
      var hi, lo := Nibbles(b[0]);
      var e, tail := Encode(b), Encode(b[1..]);
      EncodeIsLowerHex(b[1..]);
      assert e == [Digit(hi), Digit(lo)] + tail;
      forall i | 2 <= i < |e|
        ensures IsLowerHexDigit(e[i])
      {
        assert e[i] == tail[i - 2];
      }
    }
  }

  /** The value of a lowercase hexadecimal digit. */
  function DigitValue(c: char): (r: Option<nat>)
    ensures r.Some? <==> IsLowerHexDigit(c)
    ensures r.Some? ==> r.value < 16 && Digit(r.value) == c
  {
    if '0' <= c <= '9' then Some(c as int - '0' as int)
    else if 'a' <= c <= 'f' then Some(c as int - 'a' as int + 10)
    else None
  }

  /** Reads back a lowercase hex string; `None` for odd length or a foreign character. */
  function Decode(s: string): (r: Option<seq<byte>>)
    ensures r.Some? ==> 2 * |r.value| == |s|
    decreases |s|
  {
    if |s| == 0 then Some([])
    else if |s| == 1 then None
    else
      var hi :- DigitValue(s[0]);
      var lo :- DigitValue(s[1]);
      var rest :- Decode(s[2..]);
      Some([(hi * 16 + lo) as byte] + rest)
  }

  lemma {:induction false} DecodeEncode(b: seq<byte>)
    ensures Decode(Encode(b)) == Some(b)
    decreases |b|
  {
    if |b| != 0 {
      var hi, lo := Nibbles(b[0]);
      var e, tail := Encode(b), Encode(b[1..]);
      assert e == [Digit(hi), Digit(lo)] + tail;
      assert e[0] == Digit(hi) && e[1] == Digit(lo) && e[2..] == tail;
      DigitValueOfDigit(hi);
      DigitValueOfDigit(lo);
      DecodeEncode(b[1..]);
      DecodeStep(e, hi, lo, b[1..]);
      assert b == [b[0]] + b[1..];
    }
  }

  /** The two nibbles of a byte, high first. */
  lemma Nibbles(x: byte) returns (hi: nat, lo: nat)
    ensures hi == x as int / 16 && lo == x as int % 16
    ensures hi < 16 && lo < 16 && (hi * 16 + lo) as byte == x
  {
    hi, lo := x as int / 16, x as int % 16;
  }

  /** One step of decoding: two digits, then the rest. */
  lemma DecodeStep(s: string, hi: nat, lo: nat, rest: seq<byte>)
    requires |s| >= 2 && hi < 16 && lo < 16
    requires DigitValue(s[0]) == Some(hi) && DigitValue(s[1]) == Some(lo)
    requires Decode(s[2..]) == Some(rest)
    ensures Decode(s) == Some([(hi * 16 + lo) as byte] + rest)
  {
  }

  lemma DigitValueOfDigit(d: nat)
    requires d < 16
    ensures DigitValue(Digit(d)) == Some(d)
  {
  }

  /** Distinct byte strings render to distinct hex strings. */
  lemma EncodeInjective(a: seq<byte>, b: seq<byte>)
    ensures Encode(a) == Encode(b) <==> a == b
  {
    if Encode(a) == Encode(b) {
      DecodeEncode(a);
      DecodeEncode(b);
    }
  }
}

=== FILE: keystore.dfy ===
/** The key store: the two raw key files in the signing key directory,
    modelled as a map from file name to contents, plus whether the private
    file has been restricted to its owner. */
module KeyStore {
  import opened Bytes
  import opened Wrappers
  import opened Crypto
  import opened Errors

  const PrivateKeyFile: string := "plugin_signing_key.bin"
  const PublicKeyFile: string := "plugin_signing_key.pub.bin"

  datatype Store = Store(files: map<string, seq<byte>>, privateOwnerOnly: bool)

  datatype KeygenOutcome =
    /** a private key was already there: warned, nothing written */
    | AlreadyExists
    /** a fresh pair was written; the public half is reported */
    | Generated(publicKey: KeyBytes)

  /** `keygen`, with `seed` the 32 bytes drawn from the operating system's
      random source. An existing private key is never overwritten. */
  function Keygen(p: Primitives, store: Store, seed: KeyBytes): (r: (Store, KeygenOutcome))
    ensures PrivateKeyFile in store.files ==> r == (store, AlreadyExists)
    ensures PrivateKeyFile !in store.files ==>
      && r.1 == Generated(p.publicOf(seed))
      && r.0.files.Keys == store.files.Keys + {PrivateKeyFile, PublicKeyFile}
      && r.0.files[PrivateKeyFile] == seed
      && r.0.files[PublicKeyFile] == p.publicOf(seed)
      && r.0.privateOwnerOnly
    ensures forall f :: f in store.files && f != PrivateKeyFile && f != PublicKeyFile ==>
      f in r.0.files && r.0.files[f] == store.files[f]
  {
    if PrivateKeyFile in store.files then
      (store, AlreadyExists)
    else
      var pk := p.publicOf(seed);
      var files := store.files[PrivateKeyFile := seed][PublicKeyFile := pk];
      (Store(files, true), Generated(pk))
  }

  /** `load_signing_key`: the private seed, if the file is there and 32 bytes long. */
  function LoadSigningKey(store: Store): (r: Result<KeyBytes, Error>)
    ensures PrivateKeyFile !in store.files <==> r == Failure(PrivateKeyUnreadable)
    ensures PrivateKeyFile in store.files && |store.files[PrivateKeyFile]| != 32 <==> r == Failure(InvalidKeyFileSize)
    ensures r.Success? <==> PrivateKeyFile in store.files && |store.files[PrivateKeyFile]| == 32
    ensures r.Success? ==> r.value == store.files[PrivateKeyFile]
  {
    if PrivateKeyFile !in store.files then Failure(PrivateKeyUnreadable)
    else
      var bytes := store.files[PrivateKeyFile];
      if |bytes| != 32 then Failure(InvalidKeyFileSize) else Success(bytes)
  }

  /** `load_verifying_key`: the public key, if the file is there, 32 bytes
      long and a valid point. */
  function LoadVerifyingKey(p: Primitives, store: Store): (r: Result<KeyBytes, Error>)
    ensures PublicKeyFile !in store.files <==> r == Failure(PublicKeyUnreadable)
    ensures PublicKeyFile in store.files && |store.files[PublicKeyFile]| != 32 <==> r == Failure(InvalidKeyFileSize)
    ensures r == Failure(InvalidPublicKey) <==>
      PublicKeyFile in store.files && |store.files[PublicKeyFile]| == 32 && !p.isPoint(store.files[PublicKeyFile])
    ensures r.Success? <==>
      PublicKeyFile in store.files && |store.files[PublicKeyFile]| == 32 && p.isPoint(store.files[PublicKeyFile])
    ensures r.Success? ==> r.value == store.files[PublicKeyFile]
  {
    if PublicKeyFile !in store.files then Failure(PublicKeyUnreadable)
    else
      var bytes := store.files[PublicKeyFile];
      if |bytes| != 32 then Failure(InvalidKeyFileSize)
      else if !p.isPoint(bytes) then Failure(InvalidPublicKey)
      else Success(bytes)
  }

  /** The store holds a usable pair: a 32-byte seed and the public key derived from it. */
  ghost predicate Matched(p: Primitives, store: Store) {
    && PrivateKeyFile in store.files
    && |store.files[PrivateKeyFile]| == 32
    && PublicKeyFile in store.files
    && store.files[PublicKeyFile] == p.publicOf(store.files[PrivateKeyFile])
  }

  /** After a first `keygen` both halves load, and the public one belongs to the private one. */
  lemma KeygenThenLoad(p: Primitives, store: Store, seed: KeyBytes)
    requires Sound(p)
    requires PrivateKeyFile !in store.files
    ensures Matched(p, Keygen(p, store, seed).0)
    ensures LoadSigningKey(Keygen(p, store, seed).0) == Success(seed)
    ensures LoadVerifyingKey(p, Keygen(p, store, seed).0) == Success(p.publicOf(seed))
  {
  }

  /** A second `keygen`, with any randomness, changes nothing. */
  lemma KeygenTwiceKeepsKey(p: Primitives, store: Store, seed1: KeyBytes, seed2: KeyBytes)
    ensures Keygen(p, Keygen(p, store, seed1).0, seed2) == (Keygen(p, store, seed1).0, AlreadyExists)
  {
  }
}

=== FILE: manifest.dfy ===
/** Version extraction from `plugin.toml`: a scan over the text's lines for the
    first one that starts with `version = `, whose remainder has every leading
    and trailing double quote trimmed. */
module Manifest {
  import opened Wrappers

  const VersionPrefix: string := "version = "

  predicate HasPrefix(s: string, prefix: string) {
    |prefix| <= |s| && s[..|prefix|] == prefix
  }

  /** Position of the first occurrence of `c` in `s`. */
  function IndexOf(s: string, c: char): (r: Option<nat>)
    ensures r.Some? ==> r.value < |s| && s[r.value] == c && c !in s[..r.value]
    ensures r.None? <==> c !in s
  {
    if |s| == 0 then None
    else if s[0] == c then Some(0)
    else
      match IndexOf(s[1..], c)
      case None => None
      case Some(i) =>
        assert s[..i + 1] == [s[0]] + s[1..][..i];
        Some(i + 1)
  }

  /** Drops one `\r` left in front of the `\n` that ended a line. */
  function StripCr(line: string): (r: string)
    ensures r == line || (line == r + "\r")
  {
    if |line| > 0 && line[|line| - 1] == '\r' then line[..|line| - 1] else line
  }

  /** `str::lines`: pieces split after each `\n`; a piece that ended in `\n`
      loses it and then one `\r`, the last piece keeps what it has, and no
      empty line follows a final `\n`. */
  function Lines(s: string): (r: seq<string>)
    ensures forall i :: 0 <= i < |r| ==> '\n' !in r[i]
    ensures |s| == 0 <==> |r| == 0
    decreases |s|
  {
    if |s| == 0 then []
    else
      match IndexOf(s, '\n')
      case None => [s]
      case Some(i) => [StripCr(s[..i])] + Lines(s[i + 1..])
  }

  /** A line without `\n` followed by `\n` is the first line (less one
      `\r`), and the lines after it are those of the rest. */
  lemma LinesCons(line: string, rest: string)
    requires '\n' !in line
    ensures Lines(line + "\n" + rest) == [StripCr(line)] + Lines(rest)
  {
    var s := line + "\n" + rest;
    assert s[..|line|] == line;
    assert s[|line|] == '\n';
    assert IndexOf(s, '\n') == Some(|line|);
    assert s[|line| + 1..] == rest;
  }

  /** A last line without a newline is the only line. */
  lemma LinesLast(line: string)
    requires '\n' !in line
    requires |line| > 0
    ensures Lines(line) == [line]
  {
  }

  /** Index of the first line that starts with `prefix`. */
  function FirstWithPrefix(lines: seq<string>, prefix: string): (r: Option<nat>)
    ensures r.Some? ==> r.value < |lines| && HasPrefix(lines[r.value], prefix)
    ensures r.Some? ==> forall j :: 0 <= j < r.value ==> !HasPrefix(lines[j], prefix)
    ensures r.None? <==> forall j :: 0 <= j < |lines| ==> !HasPrefix(lines[j], prefix)
  {
    if |lines| == 0 then None
    else if HasPrefix(lines[0], prefix) then Some(0)
    else
      match FirstWithPrefix(lines[1..], prefix)
      case None => None
      case Some(i) => Some(i + 1)
  }

  /** Every character of `s` is a double quote. */
  predicate AllQuotes(s: string) {
    forall k :: 0 <= k < |s| ==> s[k] == '"'
  }

  /** How many double quotes `s` starts with. */
  function LeadingQuotes(s: string): (k: nat)
    ensures k <= |s|
  {
    if |s| > 0 && s[0] == '"' then 1 + LeadingQuotes(s[1..]) else 0
  }

  /** How many double quotes `s` ends with. */
  function TrailingQuotes(s: string): (k: nat)
    ensures k <= |s|
  {
    if |s| > 0 && s[|s| - 1] == '"' then 1 + TrailingQuotes(s[..|s| - 1]) else 0
  }

  /** The leading run is all quotes and is followed by something else, or by nothing. */
  lemma {:induction false} LeadingQuotesRun(s: string)
    ensures AllQuotes(s[..LeadingQuotes(s)])
    ensures LeadingQuotes(s) == |s| || s[LeadingQuotes(s)] != '"'
  {
    if |s| > 0 && s[0] == '"' {
      LeadingQuotesRun(s[1..]);
      assert s[..LeadingQuotes(s)] == [s[0]] + s[1..][..LeadingQuotes(s[1..])];
    }
  }

  /** The trailing run is all quotes and is preceded by something else, or by nothing. */
  lemma {:induction false} TrailingQuotesRun(s: string)
    ensures AllQuotes(s[|s| - TrailingQuotes(s)..])
    ensures TrailingQuotes(s) == |s| || s[|s| - 1 - TrailingQuotes(s)] != '"'
  {
    if |s| > 0 && s[|s| - 1] == '"' {
      var u := s[..|s| - 1];
      var k := TrailingQuotes(u);
      TrailingQuotesRun(u);
      assert TrailingQuotes(s) == k + 1;
      forall x | |s| - (k + 1) <= x < |s|
        ensures s[x] == '"'
      {
        if x < |s| - 1 {
          assert s[x] == u[|u| - k..][x - (|u| - k)];
        }
      }
      assert k + 1 < |s| ==> s[|s| - 1 - (k + 1)] == u[|u| - 1 - k];
    }
  }

  /** `s` with quotes cut from both ends leaves `r`. */
  ghost predicate QuotesCut(s: string, r: string) {
    exists i, j :: 0 <= i <= j <= |s| && r == s[i..j] && AllQuotes(s[..i]) && AllQuotes(s[j..])
  }

  /** `trim_matches('"')`: every leading and every trailing quote is cut, so
      the result neither starts nor ends with one. */
  function TrimQuotes(s: string): (r: string)
    ensures QuotesCut(s, r)
    ensures |r| == 0 || (r[0] != '"' && r[|r| - 1] != '"')
  {
    var i := LeadingQuotes(s);
    var t := s[i..];
    TrimQuotesCuts(s);
    t[..|t| - TrailingQuotes(t)]
  }

  lemma TrimQuotesCuts(s: string)
    ensures var i := LeadingQuotes(s);
      var t := s[i..];
      var r := t[..|t| - TrailingQuotes(t)];
      QuotesCut(s, r) && (|r| == 0 || (r[0] != '"' && r[|r| - 1] != '"'))
  {
    var i := LeadingQuotes(s);
    var t := s[i..];
    var n := TrailingQuotes(t);
    var r := t[..|t| - n];
    LeadingQuotesRun(s);
    TrailingQuotesRun(t);
    CutWitness(s, i, t, n);
    if |r| > 0 {
      assert r[0] == s[i];
      assert r[|r| - 1] == t[|t| - 1 - n];
    }
  }

  lemma CutWitness(s: string, i: nat, t: string, n: nat)
    requires i <= |s| && t == s[i..] && n <= |t|
    requires AllQuotes(s[..i]) && AllQuotes(t[|t| - n..])
    ensures QuotesCut(s, t[..|t| - n])
  {
    var j := i + |t| - n;
    assert t[..|t| - n] == s[i..j];
    assert s[j..] == t[|t| - n..];
  }

  /** The version declared in a manifest text, `None` when no line starts with
      `version = ` exactly. */
  function ExtractVersion(text: string): (r: Option<string>)
    ensures r.None? <==> forall j :: 0 <= j < |Lines(text)| ==> !HasPrefix(Lines(text)[j], VersionPrefix)
    ensures r.Some? ==> exists i :: (0 <= i < |Lines(text)| && IsVersionLine(Lines(text), i)
      && r.value == TrimQuotes(Lines(text)[i][|VersionPrefix|..]))
    ensures r.Some? ==> '\n' !in r.value
    ensures r.Some? ==> |r.value| == 0 || (r.value[0] != '"' && r.value[|r.value| - 1] != '"')
  {
    var lines := Lines(text);
    match FirstWithPrefix(lines, VersionPrefix)
    case None => None
    case Some(i) =>
      var v := TrimQuotes(lines[i][|VersionPrefix|..]);
      assert IsVersionLine(lines, i);
      assert HasPrefix(Lines(text)[i], VersionPrefix);
      assert QuotesCut(lines[i][|VersionPrefix|..], v);
      Some(v)
  }

  /** Line `i` is the first line that starts with `version = `. */
  predicate IsVersionLine(lines: seq<string>, i: nat)
    requires i < |lines|
  {
    && HasPrefix(lines[i], VersionPrefix)
    && forall j :: 0 <= j < i ==> !HasPrefix(lines[j], VersionPrefix)
  }

  /** A first line that starts with `version = ` decides the version, whatever follows. */
  lemma VersionFromFirstLine(line: string, rest: string)
    requires '\n' !in line && HasPrefix(StripCr(line), VersionPrefix)
    ensures ExtractVersion(line + "\n" + rest) == Some(TrimQuotes(StripCr(line)[|VersionPrefix|..]))
  {
    LinesCons(line, rest);
  }

  /** A first line that does not start with `version = ` is skipped. */
  lemma VersionSkipsLine(line: string, rest: string)
    requires '\n' !in line && !HasPrefix(StripCr(line), VersionPrefix)
    ensures ExtractVersion(line + "\n" + rest) == ExtractVersion(rest)
  {
    LinesCons(line, rest);
    var lines := [StripCr(line)] + Lines(rest);
    assert lines[1..] == Lines(rest);
  }

  /** The last line, with no newline after it, is read as it stands. */
  lemma VersionFromLastLine(line: string)
    requires '\n' !in line && HasPrefix(line, VersionPrefix)
    ensures ExtractVersion(line) == Some(TrimQuotes(line[|VersionPrefix|..]))
  {
    LinesLast(line);
  }

  /** A manifest whose second line is `version = "1.2.0"` declares version `1.2.0`. */
  lemma ExampleManifest(text: string, first: string, second: string)
    requires first == "name = \"todo-plugin\"" && second == VersionPrefix + "\"1.2.0\""
    requires text == first + "\n" + second + "\n"
    ensures ExtractVersion(text) == Some("1.2.0")
  {
    assert text == first + "\n" + (second + "\n" + "");
    assert StripCr(first) == first;
    IndentedLineIgnored(first);
    VersionSkipsLine(first, second + "\n" + "");
    ExampleVersionLine(second);
  }

  lemma ExampleVersionLine(second: string)
    requires second == VersionPrefix + "\"1.2.0\""
    ensures ExtractVersion(second + "\n" + "") == Some("1.2.0")
  {
    assert StripCr(second) == second;
    assert HasPrefix(second, VersionPrefix);
    VersionFromFirstLine(second, "");
    assert second[|VersionPrefix|..] == "\"1.2.0\"";
    QuotedExample();
  }

  lemma QuotedExample()
    ensures TrimQuotes("\"1.2.0\"") == "1.2.0"
  {
    assert Quotes(1) == ['"'] + Quotes(0);
    assert "\"1.2.0\"" == Quotes(1) + "1.2.0" + Quotes(1);
    QuotesTrimmedUnpaired(1, "1.2.0", 1);
  }

  /** A line whose first character is not `v`, such as an indented one, is not a version line. */
  lemma IndentedLineIgnored(line: string)
    requires |line| > 0 && line[0] != 'v'
    ensures !HasPrefix(line, VersionPrefix)
  {
    assert VersionPrefix[0] == 'v';
  }

  /** `version=` without the surrounding spaces is not a version line. */
  lemma UnspacedLineIgnored(line: string)
    requires HasPrefix(line, "version=")
    ensures !HasPrefix(line, VersionPrefix)
  {
    assert line[7] == '=' && VersionPrefix[7] == ' ';
  }

  /** `n` double quotes. */
  function Quotes(n: nat): (r: string)
    ensures |r| == n && AllQuotes(r)
  {
    if n == 0 then [] else ['"'] + Quotes(n - 1)
  }

  lemma {:induction false} LeadingOfQuotes(m: nat, w: string)
    requires |w| == 0 || w[0] != '"'
    ensures LeadingQuotes(Quotes(m) + w) == m
  {
    if m > 0 {
      assert (Quotes(m) + w)[1..] == Quotes(m - 1) + w;
      LeadingOfQuotes(m - 1, w);
    }
  }

  lemma {:induction false} TrailingOfQuotes(w: string, n: nat)
    requires |w| == 0 || w[|w| - 1] != '"'
    ensures TrailingQuotes(w + Quotes(n)) == n
  {
    if n > 0 {
      var q := w + Quotes(n);
      assert q[|q| - 1] == Quotes(n)[n - 1];
      assert q[..|q| - 1] == w + Quotes(n)[..n - 1];
      QuotesPrefix(n);
      TrailingOfQuotes(w, n - 1);
    }
  }

  lemma QuotesPrefix(n: nat)
    requires n > 0
    ensures Quotes(n)[..n - 1] == Quotes(n - 1)
  {
  }

  /** Quotes are cut one by one, not as a pair: an opening quote with no
      closing one goes, and so does every repeated quote. */
  lemma QuotesTrimmedUnpaired(m: nat, v: string, n: nat)
    requires |v| == 0 || (v[0] != '"' && v[|v| - 1] != '"')
    ensures TrimQuotes(Quotes(m) + v + Quotes(n)) == v
  {
    if |v| == 0 {
      assert Quotes(m) + v + Quotes(n) == Quotes(m) + Quotes(n);
      TrimOnlyQuotes(m, n);
    } else {
      TrimAroundQuotes(m, v, n);
    }
  }

  lemma TrimAroundQuotes(m: nat, v: string, n: nat)
    requires |v| > 0 && v[0] != '"' && v[|v| - 1] != '"'
    ensures TrimQuotes(Quotes(m) + v + Quotes(n)) == v
  {
    var q := Quotes(m) + v + Quotes(n);
    assert q == Quotes(m) + (v + Quotes(n));
    LeadingOfQuotes(m, v + Quotes(n));
    var t := q[m..];
    assert t == v + Quotes(n);
    TrailingOfQuotes(v, n);
    assert t[..|t| - n] == v;
  }

  lemma TrimOnlyQuotes(m: nat, n: nat)
    ensures TrimQuotes(Quotes(m) + Quotes(n)) == []
  {
    var q := Quotes(m) + Quotes(n);
    var all := Quotes(m + n);
    forall k | 0 <= k < |q|
      ensures q[k] == all[k]
    {
      assert q[k] == if k < m then Quotes(m)[k] else Quotes(n)[k - m];
    }
    assert q == all + [];
    LeadingOfQuotes(m + n, []);
  }

  /** An unbalanced `version = "1.0` declares `1.0`. */
  lemma UnbalancedQuoteExample()
    ensures TrimQuotes("\"1.0") == "1.0"
  {
    assert Quotes(1) == ['"'] + Quotes(0);
    assert Quotes(1) + "1.0" + Quotes(0) == "\"1.0";
    QuotesTrimmedUnpaired(1, "1.0", 0);
  }
}

=== FILE: message.dfy ===
/** The canonical messages that get signed: `:`-joined fields, no escaping. */
module Message {
  import opened Wrappers
  import Manifest

  /** The plugin's path as it appears in the message: its directory name and a slash. */
  function PluginPath(name: string): string {
    name + "/"
  }

  /** Plugin scheme `{name}/:{version}:{init checksum}:{manifest checksum}`.
      With equal-width checksums, a reader that takes the name up to the
      first `/` and the checksums from the end recovers every field exactly
      when the name holds no `/`; the version may contain anything. */
  function PluginMessage(name: string, version: string, initChecksum: string, tomlChecksum: string): (r: string)
    ensures |initChecksum| == |tomlChecksum| ==>
      (ParsePlugin(r, |tomlChecksum|) == Some((name, version, initChecksum, tomlChecksum)) <==> '/' !in name)
  {
    PluginReadBack(name, version, initChecksum, tomlChecksum);
    PluginPath(name) + ":" + version + ":" + initChecksum + ":" + tomlChecksum
  }

  lemma PluginReadBack(name: string, version: string, c1: string, c2: string)
    ensures var m := PluginPath(name) + ":" + version + ":" + c1 + ":" + c2;
      |c1| == |c2| ==> (ParsePlugin(m, |c2|) == Some((name, version, c1, c2)) <==> '/' !in name)
  {
    var m := PluginPath(name) + ":" + version + ":" + c1 + ":" + c2;
    ParsedNameHasNoSlash(m, |c2|);
    if |c1| == |c2| && '/' !in name {
      ParsePluginFields(name, version, c1, c2);
    }
  }

  /** A name read from a plugin message never holds `/`. */
  lemma ParsedNameHasNoSlash(m: string, width: nat)
    ensures ParsePlugin(m, width).Some? ==> '/' !in ParsePlugin(m, width).value.0
  {
  }

  lemma ParsePluginFields(name: string, version: string, c1: string, c2: string)
    requires '/' !in name && |c1| == |c2|
    ensures ParsePlugin(PluginPath(name) + ":" + version + ":" + c1 + ":" + c2, |c2|) == Some((name, version, c1, c2))
  {
    var tail := ":" + version + ":" + c1 + ":" + c2;
    var m := name + ['/'] + tail;
    assert PluginPath(name) + ":" + version + ":" + c1 + ":" + c2 == m;
    PluginTailLayout(version, c1, c2);
    FirstSeparator(name, tail, '/');
    assert m[..|name|] == name && m[|name| + 1..] == tail;
  }

  /** Reads a plugin message back, given the checksum width: the name runs
      to the first `/`, the two checksums are the last `width` characters
      before and after the final separator, and the version is what lies
      between. `None` when the layout does not fit. */
  function ParsePlugin(m: string, width: nat): Option<(string, string, string, string)> {
    var i :- Manifest.IndexOf(m, '/');
    var fields :- ParsePluginTail(m[i + 1..], width);
    Some((m[..i], fields.0, fields.1, fields.2))
  }

  /** The part after the `/`: `:{version}:{init}:{manifest}` with both
      checksums `width` characters wide. */
  function ParsePluginTail(t: string, width: nat): Option<(string, string, string)> {
    var n := |t|;
    if n < 2 * width + 3 || t[0] != ':' || t[n - 2 * width - 2] != ':' || t[n - width - 1] != ':' then None
    else Some((t[1..n - 2 * width - 2], t[n - 2 * width - 1..n - width - 1], t[n - width..]))
  }

  /** Release scheme `{version}:{platform}:{bare hex checksum}`. Read back by
      splitting at the first two `:`, it yields its own fields exactly when
      neither version nor platform holds a `:`. */
  function ReleaseMessage(version: string, platform: string, checksumHex: string): (r: string)
    ensures ParseRelease(r) == Some((version, platform, checksumHex)) <==> ':' !in version && ':' !in platform
  {
    ReleaseReadBack(version, platform, checksumHex);
    version + ":" + platform + ":" + checksumHex
  }

  lemma ReleaseReadBack(version: string, platform: string, checksumHex: string)
    ensures ParseRelease(version + ":" + platform + ":" + checksumHex) == Some((version, platform, checksumHex))
        <==> ':' !in version && ':' !in platform
  {
    var rest := platform + [':'] + checksumHex;
    var m := version + [':'] + rest;
    assert version + ":" + platform + ":" + checksumHex == m;
    if ':' !in version {
      FirstSeparator(version, rest, ':');
      assert m[..|version|] == version && m[|version| + 1..] == rest;
      if ':' !in platform {
        FirstSeparator(platform, checksumHex, ':');
        assert rest[..|platform|] == platform && rest[|platform| + 1..] == checksumHex;
      }
    }
  }

  /** Reads a release message back: the version runs to the first `:`, the
      platform to the next one, and the checksum is the rest. */
  function ParseRelease(m: string): Option<(string, string, string)> {
    var i :- Manifest.IndexOf(m, ':');
    var rest := m[i + 1..];
    var j :- Manifest.IndexOf(rest, ':');
    Some((m[..i], rest[..j], rest[j + 1..]))
  }

  /** The first separator in `a + [c] + b` is the one after `a` when `a` holds none. */
  lemma FirstSeparator(a: string, b: string, c: char)
    requires c !in a
    ensures Manifest.IndexOf(a + [c] + b, c) == Some(|a|)
  {
    var s := a + [c] + b;
    assert s[|a|] == c;
    assert forall k :: 0 <= k < |a| ==> s[k] == a[k];
  }

  /** The part after the `/` reads back as its three fields. */
  lemma PluginTailLayout(version: string, c1: string, c2: string)
    requires |c1| == |c2|
    ensures ParsePluginTail(":" + version + ":" + c1 + ":" + c2, |c2|) == Some((version, c1, c2))
  {
    var t, w, n := ":" + version + ":" + c1 + ":" + c2, |c2|, |version|;
    assert t == [':'] + version + [':'] + c1 + [':'] + c2;
    assert |t| == 2 * w + 3 + n;
    assert t[0] == ':' && t[n + 1] == ':' && t[n + w + 2] == ':';
    assert t[1..n + 1] == version && t[n + 2..n + w + 2] == c1 && t[n + w + 3..] == c2;
  }

  /** If neither left part holds the separator, the separator splits `a + [c] + b`
      back into its parts. */
  lemma {:induction false} SplitAtFirst(a1: string, b1: string, a2: string, b2: string, c: char)
    requires c !in a1 && c !in a2
    requires a1 + [c] + b1 == a2 + [c] + b2
    ensures a1 == a2 && b1 == b2
  {
    var m := a1 + [c] + b1;
    assert m[|a1|] == c && (a2 + [c] + b2)[|a2|] == c;
    assert forall k :: 0 <= k < |a1| ==> m[k] == a1[k];
    assert forall k :: 0 <= k < |a2| ==> m[k] == a2[k];
    assert |a1| == |a2|;
    assert a1 == m[..|a1|] == a2;
    assert b1 == m[|a1| + 1..] == b2;
  }

  /** Two strings that end in suffixes of the same length split the same way. */
  lemma {:induction false} SplitAtLength(a1: string, b1: string, a2: string, b2: string)
    requires |b1| == |b2|
    requires a1 + b1 == a2 + b2
    ensures a1 == a2 && b1 == b2
  {
    var m := a1 + b1;
    assert a1 == m[..|a1|] == a2;
    assert b1 == m[|a1|..] == b2;
  }

  /** The plugin scheme is unambiguous: a directory name never holds `/`,
      and both checksums have a fixed width, so the message determines every
      field, even a version that contains `:`. */
  lemma {:induction false} PluginMessageInjective(
    n1: string, v1: string, c1: string, d1: string,
    n2: string, v2: string, c2: string, d2: string)
    requires '/' !in n1 && '/' !in n2
    requires |c1| == |c2| && |d1| == |d2|
    requires PluginMessage(n1, v1, c1, d1) == PluginMessage(n2, v2, c2, d2)
    ensures n1 == n2 && v1 == v2 && c1 == c2 && d1 == d2
  {
    var t1 := ":" + v1 + ":" + c1 + ":" + d1;
    var t2 := ":" + v2 + ":" + c2 + ":" + d2;
    assert PluginMessage(n1, v1, c1, d1) == n1 + ['/'] + t1;
    assert PluginMessage(n2, v2, c2, d2) == n2 + ['/'] + t2;
    SplitAtFirst(n1, t1, n2, t2, '/');
    FieldsInjective(v1, c1, d1, v2, c2, d2);
  }

  /** After the path, the two checksums have fixed widths, so the version is
      whatever lies between the first `:` and the checksums. */
  lemma {:induction false} FieldsInjective(
    v1: string, c1: string, d1: string, v2: string, c2: string, d2: string)
    requires |c1| == |c2| && |d1| == |d2|
    requires ":" + v1 + ":" + c1 + ":" + d1 == ":" + v2 + ":" + c2 + ":" + d2
    ensures v1 == v2 && c1 == c2 && d1 == d2
  {
    assert ":" + v1 + ":" + c1 + ":" + d1 == ":" + v1 + (":" + c1 + ":" + d1);
    assert ":" + v2 + ":" + c2 + ":" + d2 == ":" + v2 + (":" + c2 + ":" + d2);
    SplitAtLength(":" + v1, ":" + c1 + ":" + d1, ":" + v2, ":" + c2 + ":" + d2);
    assert v1 == (":" + v1)[1..];
    assert v2 == (":" + v2)[1..];
    assert ":" + c1 + ":" + d1 == (":" + c1 + ":") + d1;
    assert ":" + c2 + ":" + d2 == (":" + c2 + ":") + d2;
    SplitAtLength(":" + c1 + ":", d1, ":" + c2 + ":", d2);
    assert c1 == (":" + c1 + ":")[1..|c1| + 1];
    assert c2 == (":" + c2 + ":")[1..|c2| + 1];
  }

  /** The release scheme is unambiguous only while version and platform are
      free of `:`. */
  lemma {:induction false} ReleaseMessageInjective(
    v1: string, p1: string, h1: string, v2: string, p2: string, h2: string)
    requires ':' !in v1 && ':' !in v2 && ':' !in p1 && ':' !in p2
    requires ReleaseMessage(v1, p1, h1) == ReleaseMessage(v2, p2, h2)
    ensures v1 == v2 && p1 == p2 && h1 == h2
  {
    var m := ReleaseMessage(v1, p1, h1);
    assert Some((v1, p1, h1)) == ParseRelease(m) == Some((v2, p2, h2));
  }

  /** Because `:` is not escaped, moving a `:`-separated piece from the
      version to the platform leaves the signed release message unchanged:
      one signature then vouches for both (version, platform) pairs. */
  lemma ReleaseMessageCollision(version: string, extra: string, platform: string, checksumHex: string)
    ensures (version + ":" + extra, platform) != (version, extra + ":" + platform)
    ensures ReleaseMessage(version + ":" + extra, platform, checksumHex)
         == ReleaseMessage(version, extra + ":" + platform, checksumHex)
  {
    assert |version + ":" + extra| != |version|;
    assert version + ":" + extra + ":" + platform + ":" + checksumHex
        == version + ":" + (extra + ":" + platform) + ":" + checksumHex;
  }

  /** Concretely: `1.0:beta` on `linux` and `1.0` on `beta:linux` sign the same bytes. */
  lemma ReleaseCollisionExample(v1: string, p1: string, v2: string, p2: string, h: string)
    requires v1 == "1.0:beta" && p1 == "linux" && v2 == "1.0" && p2 == "beta:linux"
    ensures ReleaseMessage(v1, p1, h) == ReleaseMessage(v2, p2, h)
  {
    assert v2 + ":" + "beta" == v1;
    assert "beta" + ":" + p1 == p2;
    ReleaseMessageCollision(v2, "beta", p1, h);
  }
}

=== FILE: protocol.dfy ===
/** Properties of the protocol as a whole: what signing produces verifies,
    verification checks exactly the message signing signed, and artifact
    problems are reported before the key store is consulted. */
module Protocol {
  import opened Bytes
  import opened Wrappers
  import opened Crypto
  import opened Errors
  import opened KeyStore
  import opened Checksum
  import opened Manifest
  import opened Message
  import opened Signer

  /** A signature is always accepted by the public key of the seed that made it. */
  lemma SignedVerifies(p: Primitives, store: Store, message: string)
    requires Sound(p) && Matched(p, store)
    ensures LoadSigningKey(store).Success? && LoadVerifyingKey(p, store).Success?
    ensures var sig := p.sign(LoadSigningKey(store).value, Utf8(message));
      && DecodeSignature(p, p.base64Encode(sig)) == Success(sig)
      && p.verify(LoadVerifyingKey(p, store).value, Utf8(message), sig)
  {
    var sk: KeyBytes := store.files[PrivateKeyFile];
    assert p.isPoint(p.publicOf(sk));
    var sig := p.sign(sk, Utf8(message));
    assert p.base64Decode(p.base64Encode(sig)) == Some(sig);
  }

  /** Signing a plugin and verifying its base64 output against the same
      directory with a matching key pair passes. */
  lemma SignPluginThenVerify(p: Primitives, dir: PluginDir, store: Store)
    requires Sound(p) && Matched(p, store)
    requires SignPlugin(p, dir, store).Success?
    ensures VerifyPlugin(p, dir, store, SignPlugin(p, dir, store).value.signature) == Success(Passed)
  {
    SignedVerifies(p, store, SignPlugin(p, dir, store).value.message);
  }

  /** Signing a release and feeding the sidecar's signature back to
      verification with the same binary, version and platform passes. */
  lemma SignReleaseThenVerify(p: Primitives, binary: BinaryFile, version: string, platform: string, store: Store)
    requires Sound(p) && Matched(p, store)
    requires binary.contents.Some?
    ensures SignRelease(p, binary, version, platform, store).Success?
    ensures VerifyRelease(p, binary, version, platform, store,
                          SignRelease(p, binary, version, platform, store).value.signature) == Success(Passed)
  {
    SignedVerifies(p, store, SignRelease(p, binary, version, platform, store).value.message);
  }

  /** From a key directory with no private key: `keygen`, then `sign-release`,
      then `verify-release` of the written signature passes. */
  lemma KeygenSignVerifyRelease(
    p: Primitives, store: Store, seed: KeyBytes, binary: BinaryFile, version: string, platform: string)
    requires Sound(p)
    requires PrivateKeyFile !in store.files
    requires binary.contents.Some?
    ensures var keys := Keygen(p, store, seed).0;
      && SignRelease(p, binary, version, platform, keys).Success?
      && VerifyRelease(p, binary, version, platform, keys,
                       SignRelease(p, binary, version, platform, keys).value.signature) == Success(Passed)
  {
    KeygenThenLoad(p, store, seed);
    SignReleaseThenVerify(p, binary, version, platform, Keygen(p, store, seed).0);
  }

  /** Verification rebuilds the very message signing signed from the same
      directory contents, whatever key stores and signature text are used:
      the verdict is the primitive's answer on that message. */
  lemma PluginMessagesAgree(p: Primitives, dir: PluginDir, signing: Store, verifying: Store, signature: string)
    requires SignPlugin(p, dir, signing).Success?
    requires LoadVerifyingKey(p, verifying).Success? && DecodeSignature(p, signature).Success?
    ensures VerifyPlugin(p, dir, verifying, signature).Success?
    ensures VerifyPlugin(p, dir, verifying, signature).value == Passed <==>
      p.verify(LoadVerifyingKey(p, verifying).value, Utf8(SignPlugin(p, dir, signing).value.message),
               DecodeSignature(p, signature).value)
  {
  }

  /** The same for releases. */
  lemma ReleaseMessagesAgree(
    p: Primitives, binary: BinaryFile, version: string, platform: string,
    signing: Store, verifying: Store, signature: string)
    requires SignRelease(p, binary, version, platform, signing).Success?
    requires LoadVerifyingKey(p, verifying).Success? && DecodeSignature(p, signature).Success?
    ensures VerifyRelease(p, binary, version, platform, verifying, signature).Success?
    ensures VerifyRelease(p, binary, version, platform, verifying, signature).value == Passed <==>
      p.verify(LoadVerifyingKey(p, verifying).value, Utf8(SignRelease(p, binary, version, platform, signing).value.message),
               DecodeSignature(p, signature).value)
  {
  }

  /** A problem with the plugin directory is reported the same way whatever
      the key store holds: the key is loaded only after the artifact passed. */
  lemma SignPluginArtifactErrorsFirst(p: Primitives, dir: PluginDir, store1: Store, store2: Store)
    requires SignPlugin(p, dir, store1).Failure? && !IsKeyError(SignPlugin(p, dir, store1).error)
    ensures SignPlugin(p, dir, store2) == SignPlugin(p, dir, store1)
  {
  }

  /** A manifest written as text is read as that text: with a version line
      and a named directory the claim succeeds, carrying the version found
      and the checksum of the manifest's bytes. */
  lemma TextManifestReads(p: Primitives, dir: PluginDir, init: seq<byte>, text: string)
    requires Sound(p)
    requires ExtractVersion(text).Some? && dir.name.Some?
    ensures ReadClaim(p, dir, init, Utf8(text)).Success?
    ensures Some(ReadClaim(p, dir, init, Utf8(text)).value.version) == ExtractVersion(text)
    ensures ReadClaim(p, dir, init, Utf8(text)).value.tomlChecksum == PrefixedChecksum(p, Utf8(text))
  {
    assert p.utf8Decode(Utf8(text)) == Some(text);
  }

  /** The checksum of `plugin.toml` in the claim is that of the file's bytes:
      the decoded text re-encodes to exactly what was read. */
  lemma ClaimCoversManifestBytes(p: Primitives, dir: PluginDir, init: seq<byte>, toml: seq<byte>)
    requires Sound(p)
    requires ReadClaim(p, dir, init, toml).Success?
    ensures ReadClaim(p, dir, init, toml).value.tomlChecksum == PrefixedChecksum(p, toml)
  {
    assert Utf8(p.utf8Decode(toml).value) == toml;
  }

  /** Signed plugin claims from directories with different names, versions or
      checksums never share a message, whatever the version contains, and so
      never share the bytes that get signed. */
  lemma SignedPluginMessagesDistinct(p: Primitives, dir1: PluginDir, dir2: PluginDir, store: Store)
    requires SignPlugin(p, dir1, store).Success? && SignPlugin(p, dir2, store).Success?
    requires '/' !in dir1.name.value && '/' !in dir2.name.value
    requires SignPlugin(p, dir1, store).value.claim != SignPlugin(p, dir2, store).value.claim
    ensures SignPlugin(p, dir1, store).value.message != SignPlugin(p, dir2, store).value.message
    ensures Utf8(SignPlugin(p, dir1, store).value.message) != Utf8(SignPlugin(p, dir2, store).value.message)
  {
    var c1, c2 := SignPlugin(p, dir1, store).value.claim, SignPlugin(p, dir2, store).value.claim;
    if c1.Message() == c2.Message() {
      PluginMessageInjective(c1.name, c1.version, c1.initChecksum, c1.tomlChecksum,
                             c2.name, c2.version, c2.initChecksum, c2.tomlChecksum);
    }
    Utf8Injective(c1.Message(), c2.Message());
  }

  /** A plugin directory named `todo-plugin` whose manifest has the line
      `name = "todo-plugin"` followed by `version = "1.2.0"` is signed over
      `todo-plugin/:1.2.0:sha256:<init hex>:sha256:<manifest hex>`. */
  lemma PluginExample(p: Primitives, dir: PluginDir, store: Store, text: string, first: string, second: string)
    requires first == "name = \"todo-plugin\"" && second == VersionPrefix + "\"1.2.0\""
    requires text == first + "\n" + second + "\n"
    requires Sound(p)
    requires dir.name == Some("todo-plugin") && dir.initLua.Some? && dir.pluginToml == Some(Utf8(text))
    requires LoadSigningKey(store).Success?
    ensures SignPlugin(p, dir, store).Success?
    ensures SignPlugin(p, dir, store).value.message
         == "todo-plugin/:1.2.0:" + PrefixedChecksum(p, dir.initLua.value) + ":" + PrefixedChecksum(p, Utf8(text))
  {
    assert p.utf8Decode(dir.pluginToml.value) == Some(text);
    ExampleManifest(text, first, second);
    ExampleClaim(p, dir, text);
    ExampleMessage(PrefixedChecksum(p, dir.initLua.value), PrefixedChecksum(p, Utf8(text)));
  }

  lemma ExampleClaim(p: Primitives, dir: PluginDir, text: string)
    requires dir.name == Some("todo-plugin") && dir.initLua.Some? && dir.pluginToml.Some?
    requires p.utf8Decode(dir.pluginToml.value) == Some(text)
    requires ExtractVersion(text) == Some("1.2.0")
    ensures ReadClaim(p, dir, dir.initLua.value, dir.pluginToml.value)
         == Success(PluginClaim("todo-plugin", "1.2.0", PrefixedChecksum(p, dir.initLua.value), PrefixedChecksum(p, Utf8(text))))
  {
  }

  lemma ExampleMessage(c: string, d: string)
    ensures PluginClaim("todo-plugin", "1.2.0", c, d).Message() == "todo-plugin/:1.2.0:" + c + ":" + d
  {
    assert "todo-plugin" + "/" + ":" + "1.2.0" + ":" == "todo-plugin/:1.2.0:";
  }

  /** A release of version `0.9.1` for platform `linux-amd64` is signed over
      `0.9.1:linux-amd64:<hex>`. */
  lemma ReleaseExample(p: Primitives, binary: BinaryFile, store: Store, version: string, platform: string)
    requires version == "0.9.1" && platform == "linux-amd64"
    requires binary.contents.Some? && LoadSigningKey(store).Success?
    ensures SignRelease(p, binary, version, platform, store).Success?
    ensures SignRelease(p, binary, version, platform, store).value.message
         == "0.9.1:linux-amd64:" + ChecksumHex(p, binary.contents.value)
  {
    var r := SignRelease(p, binary, version, platform, store);
    ReleaseExampleText(version, platform, r.value.checksum);
  }

  lemma ReleaseExampleText(version: string, platform: string, h: string)
    requires version == "0.9.1" && platform == "linux-amd64"
    ensures version + ":" + platform + ":" + h == "0.9.1:linux-amd64:" + h
  {
    assert version + ":" + platform + ":" == "0.9.1:linux-amd64:";
  }
}

=== FILE: sidecar.dfy ===
/** Where a release signature is written: the binary's path with its
    extension replaced by the old extension plus `.sig`, or by `sig` when it
    has none. Only the final path component (the file name) is modelled. */
module Sidecar {
  import opened Wrappers

  /** Position of the last `.` in `s`. */
  function LastDot(s: string): (r: Option<nat>)
    ensures r.Some? ==> r.value < |s| && s[r.value] == '.' && '.' !in s[r.value + 1..]
    ensures r.None? <==> '.' !in s
  {
    if |s| == 0 then None
    else if s[|s| - 1] == '.' then Some(|s| - 1)
    else
      var r := LastDot(s[..|s| - 1]);
      assert r.Some? ==> s[r.value + 1..] == s[..|s| - 1][r.value + 1..] + [s[|s| - 1]];
      assert r.None? ==> s == s[..|s| - 1] + [s[|s| - 1]];
      r
  }

  /** `Path::file_stem` and `Path::extension` of a file name: split at the
      last dot, except that `..` and a name whose only dot leads it (`.bashrc`)
      have no extension. */
  function SplitExtension(name: string): (r: (string, Option<string>))
    ensures r.1.None? <==> name == ".." || |name| == 0 || '.' !in name[1..]
    ensures r.1.None? ==> r.0 == name
    ensures r.1.Some? ==> name == r.0 + "." + r.1.value && |r.0| > 0 && '.' !in r.1.value
  {
    if name == ".." then (name, None)
    else
      match LastDot(name)
      case None => (name, None)
      case Some(i) =>
        if i == 0 then (name, None)
        else
          assert name[1..][i - 1] == '.';
          assert name == name[..i] + "." + name[i + 1..];
          (name[..i], Some(name[i + 1..]))
  }

  /** `Path::with_extension` on a file name: the stem, then a dot and the new
      extension unless that is empty. */
  function WithExtension(name: string, extension: string): string {
    var stem := SplitExtension(name).0;
    if |extension| == 0 then stem else stem + "." + extension
  }

  /** The sidecar file name `sign_release` derives for a binary's file
      name: the extension, if any, becomes the old extension plus `.sig`, and
      a name without one gets `sig`. Either way the result is the binary's own
      name with `.sig` appended: `app.exe` gives `app.exe.sig`, `app` gives
      `app.sig`. */
  function SidecarName(binaryName: string): (r: string)
    ensures r == binaryName + ".sig"
  {
    var (stem, ext) := SplitExtension(binaryName);
    match ext
    case None =>
      assert WithExtension(binaryName, "sig") == stem + "." + "sig";
      WithExtension(binaryName, "sig")
    case Some(e) =>
      assert WithExtension(binaryName, e + ".sig") == stem + "." + (e + ".sig");
      assert binaryName == stem + "." + e;
      WithExtension(binaryName, e + ".sig")
  }
}

=== FILE: signer.dfy ===
/** Signing and verification of plugin directories and release binaries.
    Each operation reads the artifact bytes it is given, rebuilds the
    canonical message from them, and either signs it with the stored private
    key or checks a claimed base64 signature against it with the stored
    public key. Console output is left to the caller: the operations return
    what the tool prints. */
module Signer {
  import opened Bytes
  import opened Wrappers
  import opened Crypto
  import opened Errors
  import opened KeyStore
  import opened Checksum
  import opened Manifest
  import opened Message
  import opened Sidecar

  /** A plugin directory: its final path component (`None` when the path has
      none) and the contents of `init.lua` and `plugin.toml` (`None` when the
      file is absent). */
  datatype PluginDir = PluginDir(name: Option<string>, initLua: Option<seq<byte>>, pluginToml: Option<seq<byte>>)

  /** A release binary: its file name and contents (`None` when absent). */
  datatype BinaryFile = BinaryFile(name: string, contents: Option<seq<byte>>)

  /** What the plugin scheme vouches for, as read from the directory. */
  datatype PluginClaim = PluginClaim(name: string, version: string, initChecksum: string, tomlChecksum: string) {
    function Message(): string {
      PluginMessage(name, version, initChecksum, tomlChecksum)
    }
  }

  /** The outcome of a verification that ran: a mismatch is a result, not an error. */
  datatype Verdict = Passed | Failed

  /** What `sign_plugin` reports: the claim, the signed message and the base64 signature. */
  datatype PluginSignature = PluginSignature(claim: PluginClaim, message: string, signature: string)

  /** What `sign_release` reports and writes: the base64 signature also goes
      into the sidecar file `sidecarName` next to the binary. */
  datatype ReleaseSignature = ReleaseSignature(checksum: string, message: string, signature: string, sidecarName: string)

  /** The part `sign_plugin` and `verify_plugin` share once both files are
      read: decode the manifest, extract the version, checksum both files and
      take the directory name, failing in that order. */
  function ReadClaim(p: Primitives, dir: PluginDir, init: seq<byte>, toml: seq<byte>): (r: Result<PluginClaim, Error>)
    ensures p.utf8Decode(toml).None? ==> r == Failure(NotUtf8(PluginToml))
    ensures p.utf8Decode(toml).Some? && ExtractVersion(p.utf8Decode(toml).value).None? ==> r == Failure(VersionNotFound)
    ensures p.utf8Decode(toml).Some? && ExtractVersion(p.utf8Decode(toml).value).Some? && dir.name.None? ==>
      r == Failure(InvalidPluginDirectory)
    ensures r.Success? <==> p.utf8Decode(toml).Some? && ExtractVersion(p.utf8Decode(toml).value).Some? && dir.name.Some?
    ensures r.Success? ==>
      && r.value.name == dir.name.value
      && Some(r.value.version) == ExtractVersion(p.utf8Decode(toml).value)
      && r.value.initChecksum == PrefixedChecksum(p, init)
      && r.value.tomlChecksum == PrefixedChecksum(p, Utf8(p.utf8Decode(toml).value))
    ensures r.Failure? ==> !IsKeyError(r.error)
  {
    var text :- p.utf8Decode(toml).OkOr(NotUtf8(PluginToml));
    var version :- ExtractVersion(text).OkOr(VersionNotFound);
    var initChecksum := PrefixedChecksum(p, init);
    var tomlChecksum := PrefixedChecksum(p, Utf8(text));
    var name :- dir.name.OkOr(InvalidPluginDirectory);
    Success(PluginClaim(name, version, initChecksum, tomlChecksum))
  }

  /** Base64 decoding and `Signature::from_slice`: the text must decode, to exactly 64 bytes. */
  function DecodeSignature(p: Primitives, text: string): (r: Result<SigBytes, Error>)
    ensures p.base64Decode(text).None? <==> r == Failure(SignatureNotBase64)
    ensures r == Failure(InvalidSignatureLength) <==>
      p.base64Decode(text).Some? && |p.base64Decode(text).value| != 64
    ensures r.Success? <==> p.base64Decode(text).Some? && |p.base64Decode(text).value| == 64
    ensures r.Success? ==> p.base64Decode(text) == Some(r.value)
  {
    var bytes :- p.base64Decode(text).OkOr(SignatureNotBase64);
    if |bytes| != 64 then Failure(InvalidSignatureLength) else Success(bytes)
  }

  /** `sign_plugin`: both files must exist and the claim must be readable
      before the private key is even loaded. */
  function SignPlugin(p: Primitives, dir: PluginDir, store: Store): (r: Result<PluginSignature, Error>)
    ensures dir.initLua.None? ==> r == Failure(NotFound(InitLua))
    ensures dir.initLua.Some? && dir.pluginToml.None? ==> r == Failure(NotFound(PluginToml))
    ensures dir.initLua.Some? && dir.pluginToml.Some? && ReadClaim(p, dir, dir.initLua.value, dir.pluginToml.value).Failure? ==>
      r == Failure(ReadClaim(p, dir, dir.initLua.value, dir.pluginToml.value).error)
    ensures (dir.initLua.Some? && dir.pluginToml.Some? && ReadClaim(p, dir, dir.initLua.value, dir.pluginToml.value).Success?
             && LoadSigningKey(store).Failure?) ==> r == Failure(LoadSigningKey(store).error)
    ensures r.Success? <==>
      && dir.initLua.Some? && dir.pluginToml.Some?
      && ReadClaim(p, dir, dir.initLua.value, dir.pluginToml.value).Success?
      && LoadSigningKey(store).Success?
    ensures r.Failure? && IsKeyError(r.error) ==>
      dir.initLua.Some? && dir.pluginToml.Some? && ReadClaim(p, dir, dir.initLua.value, dir.pluginToml.value).Success?
    ensures r.Success? ==>
      && dir.initLua.Some? && dir.pluginToml.Some?
      && Success(r.value.claim) == ReadClaim(p, dir, dir.initLua.value, dir.pluginToml.value)
      && r.value.message == PluginPath(r.value.claim.name) + ":" + r.value.claim.version + ":"
                            + r.value.claim.initChecksum + ":" + r.value.claim.tomlChecksum
      && LoadSigningKey(store).Success?
      && r.value.signature == p.base64Encode(p.sign(LoadSigningKey(store).value, Utf8(r.value.message)))
  {
    if dir.initLua.None? then Failure(NotFound(InitLua))
    else if dir.pluginToml.None? then Failure(NotFound(PluginToml))
    else
      var claim :- ReadClaim(p, dir, dir.initLua.value, dir.pluginToml.value);
      var message := claim.Message();
      var sk :- LoadSigningKey(store);
      Success(PluginSignature(claim, message, p.base64Encode(p.sign(sk, Utf8(message)))))
  }

  /** `verify_plugin`: reads both files, rebuilds the message, loads the
      public key, then decodes the signature; only then does the
      cryptographic check run, and its answer is a verdict, not an error. */
  function VerifyPlugin(p: Primitives, dir: PluginDir, store: Store, signature: string): (r: Result<Verdict, Error>)
    ensures dir.initLua.None? ==> r == Failure(ReadFailed(InitLua))
    ensures dir.initLua.Some? && dir.pluginToml.None? ==> r == Failure(ReadFailed(PluginToml))
    ensures r.Success? <==>
      && dir.initLua.Some? && dir.pluginToml.Some?
      && ReadClaim(p, dir, dir.initLua.value, dir.pluginToml.value).Success?
      && LoadVerifyingKey(p, store).Success?
      && DecodeSignature(p, signature).Success?
    ensures (dir.initLua.Some? && dir.pluginToml.Some?
             && ReadClaim(p, dir, dir.initLua.value, dir.pluginToml.value).Failure?) ==>
      r == Failure(ReadClaim(p, dir, dir.initLua.value, dir.pluginToml.value).error)
    ensures (dir.initLua.Some? && dir.pluginToml.Some?
             && ReadClaim(p, dir, dir.initLua.value, dir.pluginToml.value).Success?
             && LoadVerifyingKey(p, store).Failure?) ==>
      r == Failure(LoadVerifyingKey(p, store).error)
    ensures (dir.initLua.Some? && dir.pluginToml.Some?
             && ReadClaim(p, dir, dir.initLua.value, dir.pluginToml.value).Success?
             && LoadVerifyingKey(p, store).Success? && DecodeSignature(p, signature).Failure?) ==>
      r == Failure(DecodeSignature(p, signature).error)
    ensures r.Failure? && (r.error == SignatureNotBase64 || r.error == InvalidSignatureLength) ==>
      LoadVerifyingKey(p, store).Success?
    ensures r.Success? ==> (r.value == Passed <==>
      p.verify(LoadVerifyingKey(p, store).value,
               Utf8(ReadClaim(p, dir, dir.initLua.value, dir.pluginToml.value).value.Message()),
               DecodeSignature(p, signature).value))
  {
    var init :- dir.initLua.OkOr(ReadFailed(InitLua));
    var toml :- dir.pluginToml.OkOr(ReadFailed(PluginToml));
    var claim :- ReadClaim(p, dir, init, toml);
    var pk :- LoadVerifyingKey(p, store);
    var sig :- DecodeSignature(p, signature);
    Success(if p.verify(pk, Utf8(claim.Message()), sig) then Passed else Failed)
  }

  /** `sign_release`: the binary must exist before the key is loaded; the
      message is `version:platform:hex`, and the signature goes to a sidecar. */
  function SignRelease(p: Primitives, binary: BinaryFile, version: string, platform: string, store: Store)
    : (r: Result<ReleaseSignature, Error>)
    ensures binary.contents.None? ==> r == Failure(NotFound(Binary))
    ensures binary.contents.Some? && LoadSigningKey(store).Failure? ==> r == Failure(LoadSigningKey(store).error)
    ensures r.Success? <==> binary.contents.Some? && LoadSigningKey(store).Success?
    ensures r.Success? ==>
      && r.value.checksum == ChecksumHex(p, binary.contents.value)
      && r.value.message == version + ":" + platform + ":" + r.value.checksum
      && r.value.signature == p.base64Encode(p.sign(LoadSigningKey(store).value, Utf8(r.value.message)))
      && r.value.sidecarName == binary.name + ".sig"
  {
    if binary.contents.None? then Failure(NotFound(Binary))
    else
      var checksum := ChecksumHex(p, binary.contents.value);
      var message := ReleaseMessage(version, platform, checksum);
      var sk :- LoadSigningKey(store);
      var signature := p.base64Encode(p.sign(sk, Utf8(message)));
      Success(ReleaseSignature(checksum, message, signature, SidecarName(binary.name)))
  }

  /** `verify_release`: reads the binary, rebuilds the message from its bytes
      and the given version and platform, loads the public key, decodes the
      signature, and reports the cryptographic answer as a verdict. */
  function VerifyRelease(p: Primitives, binary: BinaryFile, version: string, platform: string, store: Store, signature: string)
    : (r: Result<Verdict, Error>)
    ensures binary.contents.None? ==> r == Failure(ReadFailed(Binary))
    ensures r.Success? <==>
      binary.contents.Some? && LoadVerifyingKey(p, store).Success? && DecodeSignature(p, signature).Success?
    ensures binary.contents.Some? && LoadVerifyingKey(p, store).Failure? ==>
      r == Failure(LoadVerifyingKey(p, store).error)
    ensures binary.contents.Some? && LoadVerifyingKey(p, store).Success? && DecodeSignature(p, signature).Failure? ==>
      r == Failure(DecodeSignature(p, signature).error)
    ensures r.Failure? && (r.error == SignatureNotBase64 || r.error == InvalidSignatureLength) ==>
      LoadVerifyingKey(p, store).Success?
    ensures r.Success? ==> (r.value == Passed <==>
      p.verify(LoadVerifyingKey(p, store).value,
               Utf8(version + ":" + platform + ":" + ChecksumHex(p, binary.contents.value)),
               DecodeSignature(p, signature).value))
  {
    var data :- binary.contents.OkOr(ReadFailed(Binary));
    var message := ReleaseMessage(version, platform, ChecksumHex(p, data));
    var pk :- LoadVerifyingKey(p, store);
    var sig :- DecodeSignature(p, signature);
    Success(if p.verify(pk, Utf8(message), sig) then Passed else Failed)
  }
}

=== FILE: wrappers.dfy ===
/** Failure-compatible Option and Result types, used with `:-` the way the
    signer uses Rust's `?` operator. */
module Wrappers {

  datatype Option<+T> = None | Some(value: T) {

    predicate IsFailure() {
      None?
    }

    function PropagateFailure<U>(): Option<U>
      requires None?
    {
      None
    }

    function Extract(): T
      requires Some?
    {
      value
    }

    /** Turns a missing value into the given error, like Rust's `ok_or`. */
    function OkOr<E>(error: E): Result<T, E> {
      match this
      case Some(v) => Success(v)
      case None => Failure(error)
    }
  }

  datatype Result<+T, +E> = Success(value: T) | Failure(error: E) {

    predicate IsFailure() {
      Failure?
    }

    function PropagateFailure<U>(): Result<U, E>
      requires Failure?
    {
      Failure(error)
    }

    function Extract(): T
      requires Success?
    {
      value
    }
  }
}
